=== FILE: README.md ===
# react-native-basement: tiered cache-aside fetching, modelled in Dafny

The library gives a React hook, `useBasement(source, fetch, options)`. The hook derives a token from the source with `key`. It then asks `load` for the token. When `load` returns something truthy, that is the answer. Otherwise the hook calls `fetch(source)`, hands the fetched value to `save` and answers with it. The consumer sees one of three frozen tuples: loading, error(message) or ready(value).

The storage side is built from two parts:
- `memcache` wraps any store offering `load`/`save`/`remove` in a fixed-capacity LRU map. When an entry is evicted from memory, the wrapped store's `remove` deletes it too.
- `mem` is the simplest such store: a plain token-to-value map.

This project models these three parts as pure functions over immutable data:

| file | module | models |
|---|---|---|
| `wrappers.dfy` | `Wrappers` | `Option` and `Result` |
| `js.dfy` | `Js` | JavaScript values, truthiness, `typeof`, and "is this option a function" |
| `lru.dfy` | `Lru` | the LRU map's `has`/`get`/`setpop`, as a recency-ordered key sequence plus a value map |
| `lru_history.dfy` | `LruHistory` | an independent reference for the LRU map: the `capacity` most recently touched distinct keys |
| `memcache.dfy` | `Memcache` | `memcache`: construction checks, `insert`, `load`, `save`, with a log of the calls made on the wrapped store |
| `mem.dfy` | `Mem` | `mem`: the map backend, its default `limit`, and its composition with `memcache` (the backing map always equals the LRU map's contents) |
| `basement.dfy` | `Basement` | the state tuples, `defaultOptions`, the validation cascade, `maybeFetch` and the effect body of `useBasement` |
| `pipeline.dfy` | `Pipeline` | the orchestrator running over `memcache(mem)`, and scenarios across several runs |

Modelling choices:
- The collaborators are functions passed as parameters:
  - `key` and `fetch` work on the source;
  - `load` and `save` work on a world state that they thread through;
  - the wrapped store's operations work on the store's state.
- Each collaborator returns either a value or a failure message.
- `key` has a third possible outcome, a synchronous throw. That outcome matters (see Findings).
- Every call the orchestrator makes is appended to an event log, and so is every call the memory tier makes on its store. The contracts use these logs to say which collaborators were called, how often and in what order.
- The default key is `seedrandom(JSON.stringify(source)).int32()`. It is modelled over two given functions, a serialiser and a hash, because both are library code.

## Model

| member | source | states |
|---|---|---|
| Lru.Empty | src/options/memcache.js:15 | a new LRU map has the given capacity and holds nothing |
| Lru.Bounded | src/options/memcache.js:15-22 | the in-memory map never holds more entries than its capacity |
| Lru.Get | src/options/memcache.js:32-34 | a hit returns the cached value and makes the token the most recently used, leaving the contents and the others' order unchanged; a miss changes nothing |
| Lru.SetPop | src/options/memcache.js:19-27 | an existing key is overwritten and promoted with no eviction; a new key below capacity is added; a new key at capacity evicts exactly the least recently used entry and reports it; all other entries keep their values and relative order |
| Lru.SetPopRepeated | src/options/memcache.js:19-27 | setting the most recent key to its current value leaves the map unchanged |
| LruHistory.LastUsesSnoc | src/options/memcache.js:19-34 | touching a key moves it to the back of the last-use order of the history |
| LruHistory.SetPopTracks | src/options/memcache.js:19-27 | after `setpop` the map holds the `capacity` most recently touched distinct keys, ordered by last touch |
| LruHistory.GetTracks | src/options/memcache.js:32-34 | a `get` hit counts as a touch in that same history |
| LruHistory.CachedAreMostRecent | src/options/memcache.js:15-34 | a key is cached exactly when it is among the `capacity` most recently touched distinct keys |
| Memcache.Create | src/options/memcache.js:6-17 | construction fails when `load`, `save` or `remove` is not a function, checked in that order and naming the first; a non-positive capacity is refused; otherwise memory starts empty over the store's current state, with an empty call log |
| Memcache.Insert | src/options/memcache.js:19-27 | inserting an existing token or below capacity calls no `remove`; a new token at capacity evicts the least recently used token and calls `remove` exactly once, on it; every other entry is unchanged; a failing `remove` fails the insert |
| Memcache.Load | src/options/memcache.js:30-40 | a hit returns the in-memory value without calling the store; a miss calls the store's `load` exactly once, returns its result unchanged, and inserts it into memory only when truthy, leaving both tiers exactly as `Memcache.Insert` leaves them (only the least recently used entry evicted, `remove` called on it, everything else unchanged); the load fails only when the store fails or the eviction's `remove` fails |
| Memcache.Save | src/options/memcache.js:41-44 | the store's `save` is called before the insert; when it succeeds the outcome is exactly `Memcache.Insert` over the store `save` returned, so memory maps the token to the value, only the least recently used entry is evicted and removed, and everything else is unchanged; when it fails memory and store are untouched; it settles with `undefined` unless the eviction's `remove` fails |
| Memcache.EvictedLoadsFromStore | src/options/memcache.js:22-35 | an evicted token is gone from memory, so the next `load` of it asks the store |
| Memcache.LoadFollowsHistory | src/options/memcache.js:30-40 | hits and inserted misses are the touches the LRU order follows; falsy misses are not touches |
| Memcache.SaveFollowsHistory | src/options/memcache.js:41-44 | an accepted `save` is a touch of its token |
| Mem.SaveThenLoad | src/options/mem.js:10-12 | `load` returns what `save` stored, and `save` evaluates to the value written |
| Mem.RemoveThenLoad | src/options/mem.js:10-11 | a removed token loads as `undefined`; removing is idempotent and harmless when the token is absent |
| Mem.Load | src/options/mem.js:10 | a stored token loads its value; a truthy load means the token is stored (otherwise it is `undefined`) |
| Mem.Save | src/options/mem.js:12 | the map gains the token with the value, every other entry is unchanged, and the assignment evaluates to the value written |
| Mem.Remove | src/options/mem.js:11 | the token is gone, every other entry is unchanged, and `delete` evaluates to `true` whether or not the token was there |
| Mem.Limit | src/options/mem.js:3-8 | the merged `limit` is the given value when the field is present, even `undefined`, and 32 when absent |
| Mem.OthersUnchanged | src/options/mem.js:9-12 | `save` and `remove` on one token leave every other token's value unchanged |
| Mem.LoadIsLastWrite | src/options/mem.js:9-12 | starting from an empty map, `load(t)` is the value last saved under `t`, or `undefined` if `t` was never saved or was removed since |
| Mem.Create | src/options/mem.js:3-14 | `limit` defaults to 32 when absent; a given limit becomes the LRU capacity; the returned cache works over the map's own `load`, `save` and `remove`; the tiers start empty and in step |
| Mem.LoadSynced | src/options/mem.js:9-13 | through the memory tier, `load` returns what the backing map holds and keeps map and memory equal; a miss never inserts |
| Mem.InsertResyncs | src/options/memcache.js:19-27 | over the map backend, inserting the pair the backing map already holds leaves memory and the map equal again and settles with `undefined`: the evicted token is deleted from both |
| Mem.SaveSynced | src/options/mem.js:9-13 | through the memory tier, `save` never fails and keeps the backing map equal to memory, including after an eviction |
| Mem.SaveIdempotent | src/options/mem.js:12 | saving the same pair twice leaves both tiers as saving it once |
| Basement.ToTuple | src/index.js:6-9 | loading is `(true, null, null)`, error is `(false, null, Error)`, ready is `(false, v, null)`; exactly one part is meaningful |
| Basement.TupleRoundTrip | src/index.js:6-9 | the tuple determines the state it came from |
| Basement.DefaultKey | src/index.js:19 | the default key yields the hash of the source's serialisation as a number token, and throws synchronously when serialisation fails |
| Basement.Defaults | src/index.js:17-32 | the defaults carry the given key and a callable `load` and `save` |
| Basement.DefaultsReject | src/index.js:20-31 | the default `load` and `save` reject with the "You must declare a load" and "You must declare a save" messages and change nothing |
| Basement.Merge | src/index.js:70 | options spread over the defaults: a present field wins even when it is not a function; an absent field takes the default |
| Basement.DefaultKeyDependsOnSerialisation | src/index.js:19 | the default key depends only on the source's serialisation |
| Basement.Validate | src/index.js:75-116 | the checks run in the order source, `fetch`, `key`, `load`, `save`; the first failing check's message is the result; none fails exactly when all five pass |
| Basement.AfterKey | src/index.js:36-52 | a truthy load is the answer; a falsy load leads to `fetch`, then `save` of the fetched value, and the answer is the fetched value, not `save`'s; any failure rejects with its message |
| Basement.MaybeFetchAsWritten | src/index.js:43-44 | as written, a synchronous throw from `key` escapes the chain |
| Basement.MaybeFetch | src/index.js:43-52 | the chain, with key derivation inside it: it never throws, it always calls `key` first, and a failing `key` rejects with its message without calling anything else |
| Basement.Publish | src/index.js:122-125 | a fulfilled chain publishes ready with its value, a rejected one publishes error with its message, an escaped throw publishes nothing; never loading |
| Basement.Resolve | src/index.js:68-126 | a null or undefined source is ready with itself and calls nothing; a failed validation publishes its error and calls nothing; otherwise loading is published, then what the corrected chain settles with, which is exactly one ready or error state |
| Basement.ResolveAsWritten | src/index.js:68-126 | the effect as written: the same short-circuits and validation errors, then loading followed by whatever the as-written chain publishes |
| Basement.AsWrittenAgreesUnlessKeyThrows | src/index.js:43-52 | the as-written and corrected effects agree on every input except a `key` that throws synchronously |
| Basement.Settles | src/index.js:118-126 | a run never ends in loading |
| Basement.HitSkipsFetch | src/index.js:43-47 | when `load(key(source))` is truthy the run is ready with it and calls neither `fetch` nor `save` |
| Basement.MissFetchesOnceThenSaves | src/index.js:36-50 | when `load` is falsy, `fetch(source)` is called once, then `save(token, fetched)`, and the run is ready with the fetched value when `save` succeeds, otherwise error with its message |
| Basement.FailuresEndInError | src/index.js:122-125 | a failure of `key`, `load` or `fetch` ends in error with its message, never in ready |
| Basement.OmittedLoadErrs | src/index.js:17-32 | options that omit `load` pass validation but end in the "You must declare a load" error |
| Basement.KeyThrowStaysLoading | src/index.js:43-44 | as written, a `key` that throws synchronously ends the effect with loading published and nothing after it, having called only `key` |
| Basement.CircularSourceExample | src/index.js:19 | a source the default key cannot serialise publishes nothing after loading as written, and ends in error in the corrected chain |
| Pipeline.TierLoad | src/options/memcache.js:30-40 | the memory tier's `load` over `mem` returns the backing map's value |
| Pipeline.TierSave | src/options/memcache.js:41-44 | the memory tier's `save` over `mem` succeeds and stores the value |
| Pipeline.FirstRunFills | src/index.js:43-52 | the first run for an uncached token fetches once, is ready with the fetched value, and leaves it in both tiers |
| Pipeline.SecondRunHits | src/index.js:43-47 | once a run made a truthy value ready, the next run for any source with the same token is ready with it and calls neither `fetch` nor `save` |
| Pipeline.EqualSerialisationsShareCache | src/index.js:19 | with the default key, sources that serialise alike share the cached value |
| Pipeline.MissRunSaves | src/options/memcache.js:35-44 | a miss leaves memory unchanged before the save that follows |
| Pipeline.SaveEvicts | src/options/memcache.js:22-26 | saving a new token into full tiers calls `remove` on the least recently used token, when that token is truthy (the only case the LRU library reports) |
| Pipeline.OneSlotScenario | src/options/memcache.js:19-44 | with limit 1 and a truthy token for A, resolving A, B, A: B evicts A and removes it from the map, so the third run fetches A again and is ready with it |

## Left out

- React machinery is not modelled: `useState`, `useContext`, the deep-compare effect that re-runs when the source, `fetch` or options change, and the `typeCheck("Object", options)` guard at src/index.js:60-66, which calls `setState` during render. The options are always an object here.
- Promise scheduling is not modelled. Each run is one sequential step, so overlapping runs, a stale run overwriting a newer state, and duplicate fetches for one token are out of scope.
- `seedrandom` and `JSON.stringify` are library code. They are given as a hash and a serialiser; the serialiser may fail.
- `type-check` is library code. Its checks are modelled by value tags: String, Object and Function.
- JavaScript values are simplified. Numbers are integers (no NaN, no -0, no fractions), objects and functions are opaque identities, and arrays and other built-in object kinds are not modelled.
- A rejection reason that is not an `Error` (so `message` is undefined or destructuring fails) is not modelled. Every failure carries a message string.
- Memcache.Create: the constructor's error message embeds the offending value through `String()`. The model keeps the field name and the value instead of the rendered text.
- Basement.Resolve: runs the corrected chain `Basement.MaybeFetch`. The code as written is `Basement.ResolveAsWritten`; it differs only when `key` throws synchronously (see Findings).
- Basement.Settles: holds of the corrected chain. As written, a synchronous `key` throw leaves loading as the last published state.
- Basement.FailuresEndInError: the `key` part holds of the corrected chain. As written, a synchronous `key` throw never reaches the `.catch` at src/index.js:125.
- Lru.SetPop: the LRU library reports an eviction only when the evicted key is truthy. A falsy evicted token (`0` or `""`, from a custom `key`, or the default hash landing on 0) is reported here anyway.
- Memcache.Insert: calls `remove` for every eviction. The source calls none when the evicted token is falsy, because `setpop` then reports nothing, so that entry stays in the wrapped store.
- Mem.InsertResyncs: like Mem.SaveSynced, this holds in the source only when the evicted token is truthy.
- Mem.SaveSynced: the backing map equals memory only while evicted tokens are truthy. In the source a falsy evicted token stays in the backing map after memory drops it.
- Pipeline.SaveEvicts: covers only a truthy least recently used token. For a falsy one the source calls no `remove`, and the model (see Memcache.Insert) does not match it there.
- Pipeline.OneSlotScenario: covers only a truthy token for A. With a falsy one the source keeps A in the backing map, and the third run is answered from it without a fetch.
- The LRU map library is not part of this model. Only its observable `has`/`get`/`setpop` behaviour is modelled, plus its refusal of a capacity that is not a positive integer.
- Mem: object property-key coercion of tokens (the number 1 and the string "1" name the same slot) is not modelled, and neither are properties inherited from `Object.prototype`. Tokens are map keys compared by value.
- The wrapped store's `load` cannot change the store's state. The filesystem store's lazy directory creation is I/O outside the model.
- src/options/fs.js (react-native-fs file I/O and JSON round-trip), src/getters/base64.js (HTTP fetch and base64) and example/App.js are not part of this model. A filesystem store would be another instance of `Memcache.Store`, and `base64` another `fetch`.

## Findings

| source | as written | input that shows it | evidently intended | confidence | as-written member | corrected member |
|---|---|---|---|---|---|---|
| src/index.js:43-44 | `maybeFetch` evaluates `key(source)` before `Promise.resolve` wraps it, so a synchronous throw leaves the effect callback after loading was published, and `.then`/`.catch` are never attached; no ready or error state follows (where React then routes the exception is outside this model) | a source object that refers to itself with the default key (`JSON.stringify` throws), or any `key` that throws | every failure of key derivation ends in `errorState(message)`, like failures of `load`, `fetch` and `save` | medium, not executed | Basement.MaybeFetchAsWritten | Basement.MaybeFetch |

`Basement.ResolveAsWritten` models the effect as written. The lemmas `Basement.KeyThrowStaysLoading` and `Basement.CircularSourceExample` exhibit the discrepancy, and `Basement.AsWrittenAgreesUnlessKeyThrows` shows it is the only one. `Basement.Resolve` uses the corrected chain, and `Basement.Settles` proves that a corrected run always leaves loading.

=== FILE: basement.dfy ===
/**
 The fetch orchestrator (`useBasement` without its React plumbing): merge the
 options over the defaults, validate the source and the collaborators, then
 run the cache-aside chain key -> load -> (fetch -> save) and publish one of
 three result states.

 The collaborators are functions: `key` and `fetch` over the source, `load`
 and `save` over a world state `W` they may change (the storage tiers).
 Every call the orchestrator makes on them is logged.
 */
module Basement {
  import opened Wrappers
  import opened Js

  /** The state published to the consumer. */
  datatype ResultState = Loading | Error(message: string) | Ready(value: Value)

  /** The frozen `[isLoading, result, error]` tuple the hook returns; `error`
      is `None` for `null`, else the message of the `Error` object. */
  datatype Tuple = Tuple(isLoading: bool, result: Value, error: Option<string>)

  /** `loadingState`, `errorState(message)` and `readyState(value)`. Exactly
      one part is meaningful: loading carries no result and no error, and a
      settled tuple carries a result or an error but never both. */
  function ToTuple(s: ResultState): (r: Tuple)
    ensures r.isLoading <==> s.Loading?
    ensures r.isLoading ==> r.result == Null && r.error.None?
    ensures r.error.Some? ==> !r.isLoading && r.result == Null
    ensures s.Error? ==> r.error == Some(s.message)
    ensures s.Ready? ==> r.error.None? && r.result == s.value
  {
    match s
    case Loading => Tuple(true, Null, None)
    case Error(message) => Tuple(false, Null, Some(message))
    case Ready(value) => Tuple(false, value, None)
  }

  /** Reads a tuple back as a state: the tuple determines the state. */
  function FromTuple(t: Tuple): Option<ResultState> {
    if t.isLoading then (if t.result == Null && t.error.None? then Some(Loading) else None)
    else match t.error
      case Some(message) => if t.result == Null then Some(Error(message)) else None
      case None => Some(Ready(t.result))
  }

  lemma TupleRoundTrip(s: ResultState)
    ensures FromTuple(ToTuple(s)) == Some(s)
  {
  }

  /** How a call of `key` ended: a token (possibly through a fulfilled
      promise), a rejected promise, or a synchronous throw. */
  datatype KeyOutcome = Returned(token: Value) | Rejects(message: string) | Throws(message: string)

  type KeyFn = Value -> KeyOutcome
  type FetchFn = Value -> Result<Value, string>
  type LoadFn<!W> = (W, Value) -> (Result<Value, string>, W)
  type SaveFn<!W> = (W, Value, Value) -> (Result<Value, string>, W)

  /** Options as the caller passed them: a field is absent (`None`) or
      present with some value, which may or may not be a function. */
  datatype Options<!W> = Options(key: Option<Slot<KeyFn>>, load: Option<Slot<LoadFn<W>>>, save: Option<Slot<SaveFn<W>>>)

  /** The merged configuration `{...defaultOptions, ...options}`. */
  datatype Config<!W> = Config(key: Slot<KeyFn>, load: Slot<LoadFn<W>>, save: Slot<SaveFn<W>>)

  const LoadMissing: string := "Basement: You must declare a load(token:String) method in your options."
  const SaveMissing: string := "Basement: You must declare a save(token:String, result:Any) method in your options."

  /** The default key: a seeded 32-bit hash of `JSON.stringify(source)`.
      Serialising and hashing are given as functions; a serialisation
      failure is a synchronous throw. */
  function DefaultKey(stringify: Value -> Result<string, string>, hash: string -> int): (key: KeyFn)
    ensures forall source :: stringify(source).Ok? ==> key(source) == Returned(Num(hash(stringify(source).value)))
    ensures forall source :: stringify(source).Err? ==> key(source) == Throws(stringify(source).error)
  {
    source =>
      match stringify(source)
      case Ok(json) => Returned(Num(hash(json)))
      case Err(e) => Throws(e)
  }

  /** Sources that serialise alike get the same token from the default key. */
  lemma DefaultKeyDependsOnSerialisation(stringify: Value -> Result<string, string>, hash: string -> int, a: Value, b: Value)
    requires stringify(a) == stringify(b)
    ensures DefaultKey(stringify, hash)(a) == DefaultKey(stringify, hash)(b)
    ensures stringify(a).Ok? ==> DefaultKey(stringify, hash)(a).Returned?
  {
  }

  /** `defaultOptions`: the given default key, and `load`/`save` that reject,
      naming the function the caller must declare. */
  function Defaults<W>(key: KeyFn): (r: Config<W>)
    ensures r.key == Callable(key) && r.load.Callable? && r.save.Callable?
  {
    Config(Callable(key), Callable((w, t) => (Err(LoadMissing), w)), Callable((w, t, v) => (Err(SaveMissing), w)))
  }

  /** The default `load` and `save` reject with their messages and leave the
      world alone. */
  lemma DefaultsReject<W>(key: KeyFn, w: W, token: Value, value: Value)
    ensures Defaults<W>(key).load.fn(w, token) == (Err(LoadMissing), w)
    ensures Defaults<W>(key).save.fn(w, token, value) == (Err(SaveMissing), w)
  {
  }

  /** Spreads the caller's options over the defaults: a present field wins,
      even when its value is not a function. */
  function Merge<W>(defaults: Config<W>, options: Options<W>): (r: Config<W>)
    ensures options.key.Some? ==> r.key == options.key.value
    ensures options.key.None? ==> r.key == defaults.key
    ensures options.load.Some? ==> r.load == options.load.value
    ensures options.load.None? ==> r.load == defaults.load
    ensures options.save.Some? ==> r.save == options.save.value
    ensures options.save.None? ==> r.save == defaults.save
  {
    Config(
      match options.key case Some(k) => k case None => defaults.key,
      match options.load case Some(l) => l case None => defaults.load,
      match options.save case Some(s) => s case None => defaults.save)
  }

  /** A source the orchestrator accepts: a string or an object. */
  predicate Resolvable(source: Value) {
    source.Str? || source.Obj?
  }

  /** The validation cascade: source, then `fetch`, `key`, `load`, `save`;
      the first failing check's message, or `None` when all pass. */
  function Validate<W>(source: Value, fetch: Slot<FetchFn>, cfg: Config<W>): (r: Option<string>)
    ensures r.None? <==> Resolvable(source) && fetch.Callable? && cfg.key.Callable? && cfg.load.Callable? && cfg.save.Callable?
    ensures !Resolvable(source) ==>
              r == Some("Expected String|Object source, encountered " + TypeOf(source) + ".")
    ensures Resolvable(source) && fetch.NotCallable? ==>
              r == Some("Expected Function fetch, encountered " + SlotType(fetch) + ".")
    ensures Resolvable(source) && fetch.Callable? && cfg.key.NotCallable? ==>
              r == Some("Expected Function options.key, encountered " + SlotType(cfg.key) + ".")
    ensures Resolvable(source) && fetch.Callable? && cfg.key.Callable? && cfg.load.NotCallable? ==>
              r == Some("Expected Function options.load, encountered " + SlotType(cfg.load) + ".")
    ensures Resolvable(source) && fetch.Callable? && cfg.key.Callable? && cfg.load.Callable? && cfg.save.NotCallable? ==>
              r == Some("Expected Function options.save, encountered " + SlotType(cfg.save) + ".")
  {
    if !Resolvable(source) then Some("Expected String|Object source, encountered " + TypeOf(source) + ".")
    else if !fetch.Callable? then Some("Expected Function fetch, encountered " + SlotType(fetch) + ".")
    else if !cfg.key.Callable? then Some("Expected Function options.key, encountered " + SlotType(cfg.key) + ".")
    else if !cfg.load.Callable? then Some("Expected Function options.load, encountered " + SlotType(cfg.load) + ".")
    else if !cfg.save.Callable? then Some("Expected Function options.save, encountered " + SlotType(cfg.save) + ".")
    else None
  }

  /** A call the orchestrator made on a collaborator. */
  datatype Event = KeyCall(source: Value) | LoadCall(token: Value) | FetchCall(source: Value) | SaveCall(token: Value, result: Value)

  /** How the `maybeFetch` chain ended: its promise fulfilled or rejected, or
      an exception was thrown before any promise existed. */
  datatype Settlement = Fulfilled(value: Value) | Rejected(message: string) | Thrown(message: string)

  /** A run of the chain: how it settled, the calls it made, the world after. */
  datatype Chain<W> = Chain(settlement: Settlement, calls: seq<Event>, world: W)

  /** The chain after the token is known: load; a truthy result is the
      answer; otherwise fetch, save, and answer with the fetched value (not
      with what `save` returned). */
  function AfterKey<W>(source: Value, token: Value, fetch: FetchFn, load: LoadFn<W>, save: SaveFn<W>, w: W, calls: seq<Event>): (r: Chain<W>)
    ensures |r.calls| >= |calls| + 1 && r.calls[..|calls| + 1] == calls + [LoadCall(token)]
    ensures load(w, token).0.Err? ==> r == Chain(Rejected(load(w, token).0.error), calls + [LoadCall(token)], load(w, token).1)
    ensures load(w, token).0.Ok? && Truthy(load(w, token).0.value) ==>
              r == Chain(Fulfilled(load(w, token).0.value), calls + [LoadCall(token)], load(w, token).1)
    ensures load(w, token).0.Ok? && !Truthy(load(w, token).0.value) ==>
              match fetch(source)
              case Err(e) => r == Chain(Rejected(e), calls + [LoadCall(token), FetchCall(source)], load(w, token).1)
              case Ok(v) =>
                var saved := save(load(w, token).1, token, v);
                && r.calls == calls + [LoadCall(token), FetchCall(source), SaveCall(token, v)]
                && r.world == saved.1
                && r.settlement == (if saved.0.Ok? then Fulfilled(v) else Rejected(saved.0.error))
  {
    var (loaded, w1) := load(w, token);
    var calls1 := calls + [LoadCall(token)];
    match loaded
    case Err(e) => Chain(Rejected(e), calls1, w1)
    case Ok(v) =>
      if Truthy(v) then Chain(Fulfilled(v), calls1, w1)
      else
        var calls2 := calls1 + [FetchCall(source)];
        match fetch(source)
        case Err(e) => Chain(Rejected(e), calls2, w1)
        case Ok(fetched) =>
          var (saved, w2) := save(w1, token, fetched);
          var calls3 := calls2 + [SaveCall(token, fetched)];
          match saved
          case Err(e) => Chain(Rejected(e), calls3, w2)
          case Ok(_) => Chain(Fulfilled(fetched), calls3, w2)
  }

  /** `maybeFetch` as written: `key(source)` is evaluated before
      `Promise.resolve` wraps it, so a synchronous throw from `key` escapes
      the chain instead of rejecting it. */
  function MaybeFetchAsWritten<W>(source: Value, fetch: FetchFn, key: KeyFn, load: LoadFn<W>, save: SaveFn<W>, w: W): (r: Chain<W>)
    ensures |r.calls| >= 1 && r.calls[0] == KeyCall(source)
    ensures key(source).Throws? ==> r == Chain(Thrown(key(source).message), [KeyCall(source)], w)
  {
    match key(source)
    case Throws(e) => Chain(Thrown(e), [KeyCall(source)], w)
    case Rejects(e) => Chain(Rejected(e), [KeyCall(source)], w)
    case Returned(token) => AfterKey(source, token, fetch, load, save, w, [KeyCall(source)])
  }

  /** `maybeFetch` with the key derivation inside the promise chain, so that
      every failure of `key`, `load`, `fetch` or `save` rejects it. */
  function MaybeFetch<W>(source: Value, fetch: FetchFn, key: KeyFn, load: LoadFn<W>, save: SaveFn<W>, w: W): (r: Chain<W>)
    ensures !r.settlement.Thrown?
    ensures |r.calls| >= 1 && r.calls[0] == KeyCall(source)
    ensures !key(source).Returned? ==> r == Chain(Rejected(key(source).message), [KeyCall(source)], w)
    ensures key(source).Returned? ==> r == AfterKey(source, key(source).token, fetch, load, save, w, [KeyCall(source)])
  {
    match key(source)
    case Throws(e) => Chain(Rejected(e), [KeyCall(source)], w)
    case Rejects(e) => Chain(Rejected(e), [KeyCall(source)], w)
    case Returned(token) => AfterKey(source, token, fetch, load, save, w, [KeyCall(source)])
  }

  /** What the effect publishes when the chain settles: `.then` publishes
      ready, `.catch` publishes the error's message; an escaped throw
      publishes nothing. */
  function Publish(s: Settlement): (r: seq<ResultState>)
    ensures |r| <= 1 && (r == [] <==> s.Thrown?)
    ensures forall i :: 0 <= i < |r| ==> !r[i].Loading?
    ensures s.Fulfilled? ==> r == [Ready(s.value)]
    ensures s.Rejected? ==> r == [Error(s.message)]
  {
    match s
    case Fulfilled(v) => [Ready(v)]
    case Rejected(m) => [Error(m)]
    case Thrown(_) => []
  }

  /** One run of the effect: the states it publishes in order, the calls it
      made, and the world after. */
  datatype Run<W> = Run(published: seq<ResultState>, calls: seq<Event>, world: W)

  /** The effect body of `useBasement`: merge options over the defaults; an
      absent source is ready at once; a failed validation publishes its error;
      otherwise publish loading and run the corrected chain. */
  function Resolve<W>(source: Value, fetch: Slot<FetchFn>, options: Options<W>, defaults: Config<W>, w: W): (r: Run<W>)
    ensures |r.published| >= 1
    ensures source.Undefined? || source.Null? ==> r == Run([Ready(source)], [], w)
    ensures !(source.Undefined? || source.Null?) && Validate(source, fetch, Merge(defaults, options)).Some? ==>
              r == Run([Error(Validate(source, fetch, Merge(defaults, options)).value)], [], w)
    ensures !(source.Undefined? || source.Null?) && Validate(source, fetch, Merge(defaults, options)).None? ==>
              var cfg := Merge(defaults, options);
              var c := MaybeFetch(source, fetch.fn, cfg.key.fn, cfg.load.fn, cfg.save.fn, w);
              r == Run([Loading] + Publish(c.settlement), c.calls, c.world)
    ensures r.published[0].Loading? ==> |r.published| == 2 && !r.published[1].Loading?
    ensures r.calls != [] ==> r.published[0].Loading? && r.calls[0] == KeyCall(source)
  {
    if source.Undefined? || source.Null? then Run([Ready(source)], [], w)
    else
      var cfg := Merge(defaults, options);
      match Validate(source, fetch, cfg)
      case Some(message) => Run([Error(message)], [], w)
      case None =>
        var chain := MaybeFetch(source, fetch.fn, cfg.key.fn, cfg.load.fn, cfg.save.fn, w);
        Run([Loading] + Publish(chain.settlement), chain.calls, chain.world)
  }

  /** The effect body as written: the same decisions, but the chain is
      `MaybeFetchAsWritten`, whose synchronous `key` throw publishes nothing. */
  function ResolveAsWritten<W>(source: Value, fetch: Slot<FetchFn>, options: Options<W>, defaults: Config<W>, w: W): (r: Run<W>)
    ensures |r.published| >= 1
    ensures source.Undefined? || source.Null? ==> r == Run([Ready(source)], [], w)
    ensures !(source.Undefined? || source.Null?) && Validate(source, fetch, Merge(defaults, options)).Some? ==>
              r == Run([Error(Validate(source, fetch, Merge(defaults, options)).value)], [], w)
    ensures !(source.Undefined? || source.Null?) && Validate(source, fetch, Merge(defaults, options)).None? ==>
              var cfg := Merge(defaults, options);
              var c := MaybeFetchAsWritten(source, fetch.fn, cfg.key.fn, cfg.load.fn, cfg.save.fn, w);
              r == Run([Loading] + Publish(c.settlement), c.calls, c.world)
  {
    if source.Undefined? || source.Null? then Run([Ready(source)], [], w)
    else
      var cfg := Merge(defaults, options);
      match Validate(source, fetch, cfg)
      case Some(message) => Run([Error(message)], [], w)
      case None =>
        var chain := MaybeFetchAsWritten(source, fetch.fn, cfg.key.fn, cfg.load.fn, cfg.save.fn, w);
        Run([Loading] + Publish(chain.settlement), chain.calls, chain.world)
  }

  /** The corrected effect differs from the code as written only when `key`
      throws synchronously. */
  lemma AsWrittenAgreesUnlessKeyThrows<W>(source: Value, fetch: Slot<FetchFn>, options: Options<W>, defaults: Config<W>, w: W)
    requires Passes(source, fetch, options, defaults) ==> !Merge(defaults, options).key.fn(source).Throws?
    ensures ResolveAsWritten(source, fetch, options, defaults, w) == Resolve(source, fetch, options, defaults, w)
  {
  }

  /** The state the hook shows once a run has published. */
  function Final<W>(r: Run<W>): ResultState
    requires |r.published| >= 1
  {
    r.published[|r.published| - 1]
  }

  /** A run never ends in loading: it settles to ready or to an error. */
  lemma Settles<W>(source: Value, fetch: Slot<FetchFn>, options: Options<W>, defaults: Config<W>, w: W)
    ensures !Final(Resolve(source, fetch, options, defaults, w)).Loading?
  {
  }

  /** The configuration under which a resolvable source reaches the chain. */
  predicate Passes<W>(source: Value, fetch: Slot<FetchFn>, options: Options<W>, defaults: Config<W>) {
    Resolvable(source) && Validate(source, fetch, Merge(defaults, options)).None?
  }

  /** A truthy load is the answer: published loading then ready, and
      neither `fetch` nor `save` is called. */
  lemma HitSkipsFetch<W>(source: Value, fetch: Slot<FetchFn>, options: Options<W>, defaults: Config<W>, w: W)
    requires Passes(source, fetch, options, defaults)
    requires var cfg := Merge(defaults, options);
             && cfg.key.fn(source).Returned?
             && cfg.load.fn(w, cfg.key.fn(source).token).0.Ok?
             && Truthy(cfg.load.fn(w, cfg.key.fn(source).token).0.value)
    ensures var cfg := Merge(defaults, options);
            var token := cfg.key.fn(source).token;
            var r := Resolve(source, fetch, options, defaults, w);
            && r.published == [Loading, Ready(cfg.load.fn(w, token).0.value)]
            && r.calls == [KeyCall(source), LoadCall(token)]
  {
  }

  /** A falsy load leads to exactly one `fetch` of the source, then a `save`
      of the fetched value under the token; the run is ready with the fetched
      value when the save succeeds and errs with the save's message when not. */
  lemma MissFetchesOnceThenSaves<W>(source: Value, fetch: Slot<FetchFn>, options: Options<W>, defaults: Config<W>, w: W)
    requires Passes(source, fetch, options, defaults)
    requires var cfg := Merge(defaults, options);
             && cfg.key.fn(source).Returned?
             && cfg.load.fn(w, cfg.key.fn(source).token).0.Ok?
             && !Truthy(cfg.load.fn(w, cfg.key.fn(source).token).0.value)
             && fetch.fn(source).Ok?
    ensures var cfg := Merge(defaults, options);
            var token := cfg.key.fn(source).token;
            var fetched := fetch.fn(source).value;
            var saved := cfg.save.fn(cfg.load.fn(w, token).1, token, fetched);
            var r := Resolve(source, fetch, options, defaults, w);
            && r.calls == [KeyCall(source), LoadCall(token), FetchCall(source), SaveCall(token, fetched)]
            && r.world == saved.1
            && r.published == [Loading, if saved.0.Ok? then Ready(fetched) else Error(saved.0.error)]
  {
  }

  /** A failing `key`, `load` or `fetch` ends the run in an error carrying
      its message, never in ready. */
  lemma FailuresEndInError<W>(source: Value, fetch: Slot<FetchFn>, options: Options<W>, defaults: Config<W>, w: W)
    requires Passes(source, fetch, options, defaults)
    ensures var cfg := Merge(defaults, options);
            var k := cfg.key.fn(source);
            var r := Resolve(source, fetch, options, defaults, w);
            && (!k.Returned? ==> Final(r) == Error(k.message))
            && (k.Returned? && cfg.load.fn(w, k.token).0.Err? ==> Final(r) == Error(cfg.load.fn(w, k.token).0.error))
            && (k.Returned? && cfg.load.fn(w, k.token).0.Ok? && !Truthy(cfg.load.fn(w, k.token).0.value) && fetch.fn(source).Err? ==>
                  Final(r) == Error(fetch.fn(source).error))
  {
  }

  /** Omitting `load` passes validation (the default is a function) but ends
      in the error asking the caller to declare one, once a token is derived. */
  lemma OmittedLoadErrs<W>(source: Value, fetch: Slot<FetchFn>, key: KeyFn, save: Option<Slot<SaveFn<W>>>, w: W)
    requires Resolvable(source) && fetch.Callable? && key(source).Returned?
    requires save.None? || save.value.Callable?
    ensures var r := Resolve(source, fetch, Options(None, None, save), Defaults(key), w);
            && r.published == [Loading, Error(LoadMissing)]
            && r.calls == [KeyCall(source), LoadCall(key(source).token)]
  {
  }

  /** As written, a `key` that throws synchronously ends the effect after it
      published loading: nothing is published after it, and no collaborator
      other than `key` is called. */
  lemma KeyThrowStaysLoading<W>(source: Value, fetch: Slot<FetchFn>, options: Options<W>, defaults: Config<W>, w: W)
    requires Passes(source, fetch, options, defaults)
    requires Merge(defaults, options).key.fn(source).Throws?
    ensures var r := ResolveAsWritten(source, fetch, options, defaults, w);
            && r.published == [Loading]
            && r.calls == [KeyCall(source)]
            && Final(r) == Loading
  {
  }

  /** The default key throws when serialising the source fails (for example a
      source object that refers to itself), so as written nothing is published
      after loading for such a source; the corrected chain ends it in an error. */
  lemma CircularSourceExample<W>(fetch: FetchFn, load: LoadFn<W>, save: SaveFn<W>, w: W, hash: string -> int)
    ensures var source := Obj(0);
            var stringify := (v: Value) => if v == Obj(0) then Err("Converting circular structure to JSON") else Ok("{}");
            var key := DefaultKey(stringify, hash);
            && Publish(MaybeFetchAsWritten(source, fetch, key, load, save, w).settlement) == []
            && Publish(MaybeFetch(source, fetch, key, load, save, w).settlement) == [Error("Converting circular structure to JSON")]
  {
  }
}

=== FILE: js.dfy ===
/**
 The slice of JavaScript's value semantics the cache relies on: truthiness
 (a load result is cached only when truthy), `typeof` (it appears in the
 validation messages) and "is this a function" (every option is checked
 for being callable before use).
 */
module Js {

  /** A JavaScript value. Objects and functions are opaque and distinguished
      by identity only; numbers are integers. */
  datatype Value =
    | Undefined
    | Null
    | Bool(b: bool)
    | Num(n: int)
    | Str(s: string)
    | Obj(id: nat)
    | Fn(id: nat)

  /** A value that is not a function. */
  type NonFunction = v: Value | !v.Fn? witness Undefined

  /** JavaScript's truthiness: `undefined`, `null`, `false`, `0` and `""`
      are falsy, everything else is truthy. */
  predicate Truthy(v: Value) {
    match v
    case Undefined => false
    case Null => false
    case Bool(b) => b
    case Num(n) => n != 0
    case Str(s) => s != ""
    case Obj(_) => true
    case Fn(_) => true
  }

  /** The string JavaScript's `typeof` operator yields. */
  function TypeOf(v: Value): string {
    match v
    case Undefined => "undefined"
    case Null => "object"
    case Bool(_) => "boolean"
    case Num(_) => "number"
    case Str(_) => "string"
    case Obj(_) => "object"
    case Fn(_) => "function"
  }

  /** An option field as the caller supplied it: either a function, which the
      model keeps as a Dafny function `F`, or some other value. */
  datatype Slot<F> = Callable(fn: F) | NotCallable(found: NonFunction)

  /** `typeof` of the field's value. */
  function SlotType<F>(s: Slot<F>): string {
    match s
    case Callable(_) => "function"
    case NotCallable(v) => TypeOf(v)
  }
}

=== FILE: lru.dfy ===
/**
 The observable behaviour of the fixed-capacity LRU map the in-memory tier is
 built on: `has` (no promotion), `get` (promotes a hit) and `setpop`
 (overwrites and promotes an existing key, adds below capacity, or evicts the
 least recently used entry and reports it).
 */
module Lru {
  import opened Wrappers

  /** `s` lists no element twice. */
  predicate NoDuplicates<K(==)>(s: seq<K>) {
    forall i, j :: 0 <= i < j < |s| ==> s[i] != s[j]
  }

  /** `s` without `k`, the order of everything else kept. */
  function Remove<K(==)>(s: seq<K>, k: K): (r: seq<K>)
    ensures forall x :: x in r ==> x in s && x != k
    ensures forall x :: x in s && x != k ==> x in r
    ensures k !in s ==> r == s
  {
    if |s| == 0 then []
    else if s[0] == k then Remove(s[1..], k)
    else [s[0]] + Remove(s[1..], k)
  }

  /** Removing a key keeps a sequence duplicate-free and shortens it by one
      exactly when the key occurred. */
  lemma {:induction false} RemoveDistinct<K>(s: seq<K>, k: K)
    requires NoDuplicates(s)
    ensures NoDuplicates(Remove(s, k))
    ensures |Remove(s, k)| == if k in s then |s| - 1 else |s|
  {
    if |s| > 0 {
      assert NoDuplicates(s[1..]);
      RemoveDistinct(s[1..], k);
      if s[0] != k {
        var t := Remove(s[1..], k);
        assert s[0] !in s[1..];
        assert s[0] !in t;
        assert ([s[0]] + t)[1..] == t;
      } else {
        assert k !in s[1..];
      }
    }
  }

  lemma {:induction false} RemoveAppend<K>(s: seq<K>, x: K, k: K)
    ensures Remove(s + [x], k) == Remove(s, k) + (if x == k then [] else [x])
  {
    if |s| > 0 {
      assert (s + [x])[1..] == s[1..] + [x];
      RemoveAppend(s[1..], x, k);
    }
  }

  lemma {:induction false} RemoveConcat<K>(a: seq<K>, b: seq<K>, k: K)
    ensures Remove(a + b, k) == Remove(a, k) + Remove(b, k)
  {
    if |a| > 0 {
      assert (a + b)[1..] == a[1..] + b;
      RemoveConcat(a[1..], b, k);
    } else {
      assert a + b == b;
    }
  }

  /** A duplicate-free sequence has as many elements as the set of its elements. */
  lemma {:induction false} DistinctCardinality<K>(s: seq<K>, ks: set<K>)
    requires NoDuplicates(s)
    requires forall k :: k in s <==> k in ks
    ensures |ks| == |s|
  {
    if |s| == 0 {
      assert ks == {};
    } else {
      var rest := ks - {s[0]};
      forall k
        ensures k in s[1..] <==> k in rest
      {
        if k in s[1..] {
          var i :| 1 <= i < |s| && s[i] == k;
          assert s[0] != s[i];
        }
        if k in rest {
          var i :| 0 <= i < |s| && s[i] == k;
          assert i != 0;
          assert s[1..][i - 1] == k;
        }
      }
      DistinctCardinality(s[1..], rest);
    }
  }

  /** A duplicate-free sequence ending in `k` is the rest followed by `k`. */
  lemma BackIs<K>(r: seq<K>, k: K)
    requires NoDuplicates(r) && |r| > 0 && r[|r| - 1] == k
    ensures r == Remove(r, k) + [k]
  {
    var front := r[..|r| - 1];
    assert r == front + [k];
    assert k !in front by {
      forall j | 0 <= j < |front|
        ensures front[j] != k
      {
        assert front[j] == r[j];
      }
    }
    RemoveAppend(front, k, k);
  }

  lemma AppendDistinct<K>(s: seq<K>, k: K)
    requires NoDuplicates(s) && k !in s
    ensures NoDuplicates(s + [k])
  {
  }

  /** Moving `k` to the back keeps the sequence duplicate-free and its length. */
  lemma PromoteValid<K>(s: seq<K>, k: K, capacity: int)
    requires NoDuplicates(s) && k in s && |s| <= capacity
    ensures NoDuplicates(Remove(s, k) + [k]) && |Remove(s, k) + [k]| <= capacity
  {
    RemoveDistinct(s, k);
    AppendDistinct(Remove(s, k), k);
  }

  /** The LRU map's state: `order` lists the cached keys from least recently
      used (first) to most recently used (last); `values` holds their values. */
  datatype LruMap<K, V> = LruMap(capacity: int, order: seq<K>, values: map<K, V>)

  /** The representation invariant: a positive capacity that is never
      exceeded, and `order` lists every cached key exactly once. */
  predicate Valid<K(==), V>(m: LruMap<K, V>) {
    && 1 <= m.capacity
    && |m.order| <= m.capacity
    && NoDuplicates(m.order)
    && (forall k :: k in m.order ==> k in m.values)
    && (forall k :: k in m.values ==> k in m.order)
  }

  /** A new, empty map of the given capacity. */
  function Empty<K(==), V>(capacity: int): (r: LruMap<K, V>)
    requires 1 <= capacity
    ensures Valid(r) && r.capacity == capacity
    ensures |r.values| == 0
  {
    LruMap(capacity, [], map[])
  }

  /** The map never holds more entries than its capacity. */
  lemma Bounded<K, V>(m: LruMap<K, V>)
    requires Valid(m)
    ensures |m.values| == |m.order| <= m.capacity
  {
    DistinctCardinality(m.order, m.values.Keys);
  }

  /** `has`: membership, without touching recency. */
  predicate Has<K(==), V>(m: LruMap<K, V>, k: K) {
    k in m.values
  }

  /** `get`: a hit returns the value and makes `k` the most recently used
      key; a miss returns nothing and changes nothing. */
  function Get<K(==), V>(m: LruMap<K, V>, k: K): (r: (Option<V>, LruMap<K, V>))
    requires Valid(m)
    ensures Valid(r.1) && r.1.capacity == m.capacity
    ensures r.1.values == m.values
    ensures k in m.values ==>
              && r.0 == Some(m.values[k])
              && r.1.order[|r.1.order| - 1] == k
              && Remove(r.1.order, k) == Remove(m.order, k)
    ensures k !in m.values ==> r.0 == None && r.1 == m
  {
    if k in m.values then
      PromoteKeepsValid(m, k, m.values[k]);
      assert m.values[k := m.values[k]] == m.values;
      RemoveAppend(Remove(m.order, k), k, k);
      (Some(m.values[k]), LruMap(m.capacity, Remove(m.order, k) + [k], m.values))
    else
      (None, m)
  }

  lemma PromoteKeepsValid<K, V>(m: LruMap<K, V>, k: K, v: V)
    requires Valid(m) && k in m.values
    ensures Valid(LruMap(m.capacity, Remove(m.order, k) + [k], m.values[k := v]))
  {
    PromoteValid(m.order, k, m.capacity);
  }

  lemma AddKeepsValid<K, V>(m: LruMap<K, V>, k: K, v: V)
    requires Valid(m) && k !in m.values && |m.order| < m.capacity
    ensures Valid(LruMap(m.capacity, m.order + [k], m.values[k := v]))
  {
    AppendDistinct(m.order, k);
  }

  lemma EvictKeepsValid<K, V>(m: LruMap<K, V>, k: K, v: V)
    requires Valid(m) && k !in m.values && |m.order| == m.capacity
    ensures Valid(LruMap(m.capacity, m.order[1..] + [k], (m.values - {m.order[0]})[k := v]))
  {
    var lru := m.order[0];
    assert NoDuplicates(m.order[1..]);
    assert lru !in m.order[1..];
    AppendDistinct(m.order[1..], k);
    var r := LruMap(m.capacity, m.order[1..] + [k], (m.values - {lru})[k := v]);
    forall x | x in r.values
      ensures x in r.order
    {
      if x != k {
        assert x in m.order && x != lru;
        var i :| 0 <= i < |m.order| && m.order[i] == x;
        assert m.order[1..][i - 1] == x;
      }
    }
  }

  /** `setpop`: store `v` under `k` and make `k` the most recently used key.
      An existing key is overwritten, a new key below capacity is added, and a
      new key at capacity first evicts the least recently used entry, which is
      returned. */
  function SetPop<K(==), V>(m: LruMap<K, V>, k: K, v: V): (r: (LruMap<K, V>, Option<(K, V)>))
    requires Valid(m)
    ensures Valid(r.0) && r.0.capacity == m.capacity
    ensures r.1.Some? <==> k !in m.values && |m.order| == m.capacity
    ensures r.1.Some? ==> r.1.value == (m.order[0], m.values[m.order[0]])
    ensures r.1.Some? ==> r.1.value.0 != k && r.1.value.0 !in r.0.values
    ensures r.0.values == (if r.1.Some? then m.values - {r.1.value.0} else m.values)[k := v]
    ensures |r.0.order| == |m.order| + (if k !in m.values && |m.order| < m.capacity then 1 else 0)
    ensures r.0.order[|r.0.order| - 1] == k
    ensures Remove(r.0.order, k) == (if r.1.Some? then m.order[1..] else Remove(m.order, k))
  {
    if k in m.values then
      PromoteKeepsValid(m, k, v);
      RemoveDistinct(m.order, k);
      RemoveAppend(Remove(m.order, k), k, k);
      (LruMap(m.capacity, Remove(m.order, k) + [k], m.values[k := v]), None)
    else if |m.order| < m.capacity then
      AddKeepsValid(m, k, v);
      RemoveAppend(m.order, k, k);
      (LruMap(m.capacity, m.order + [k], m.values[k := v]), None)
    else
      var lru := m.order[0];
      EvictKeepsValid(m, k, v);
      assert k !in m.order[1..];
      RemoveAppend(m.order[1..], k, k);
      (LruMap(m.capacity, m.order[1..] + [k], (m.values - {lru})[k := v]), Some((lru, m.values[lru])))
  }

  /** Setting the most recently used key to the value it already holds
      changes nothing. */
  lemma SetPopRepeated<K, V>(m: LruMap<K, V>, k: K, v: V)
    requires Valid(m) && k in m.values && m.values[k] == v
    requires m.order[|m.order| - 1] == k
    ensures SetPop(m, k, v).0 == m
  {
    BackIs(m.order, k);
    assert m.values[k := v] == m.values;
  }
}

=== FILE: lru_history.dfy ===
/**
 An independent reference for the LRU map's recency order. Given the
 history of touched keys (every `setpop`, and every `get` that hits), the
 map holds exactly the `capacity` most recently touched distinct keys,
 ordered by their last touch.
 */
module LruHistory {
  import opened Lru

  /** The distinct keys of history `h`, each at the position of its last
      occurrence, oldest first. */
  function LastUses<K(==)>(h: seq<K>): seq<K> {
    if |h| == 0 then []
    else if h[0] in h[1..] then LastUses(h[1..])
    else [h[0]] + LastUses(h[1..])
  }

  /** The last `n` elements of `s`, or all of `s` when it is shorter. */
  function Suffix<K>(s: seq<K>, n: nat): (r: seq<K>) {
    if |s| <= n then s else s[|s| - n..]
  }

  /** The map's recency order is the one history `h` prescribes. */
  predicate Tracks<K(==), V>(m: LruMap<K, V>, h: seq<K>) {
    1 <= m.capacity && m.order == Suffix(LastUses(h), m.capacity)
  }

  lemma {:induction false} LastUsesElements<K>(h: seq<K>)
    ensures NoDuplicates(LastUses(h))
    ensures forall x :: x in LastUses(h) <==> x in h
  {
    if |h| > 0 {
      LastUsesElements(h[1..]);
      if h[0] !in h[1..] {
        var t := LastUses(h[1..]);
        assert ([h[0]] + t)[1..] == t;
      }
      forall x | x in h
        ensures x in LastUses(h)
      {
        if x != h[0] {
          var i :| 0 <= i < |h| && h[i] == x;
          assert h[1..][i - 1] == x;
        }
      }
    }
  }

  /** Touching `k` moves it to the back of the last-use order. */
  lemma {:induction false} LastUsesSnoc<K>(h: seq<K>, k: K)
    ensures LastUses(h + [k]) == Remove(LastUses(h), k) + [k]
  {
    if |h| == 0 {
      assert h + [k] == [k];
    } else {
      var t := h[1..];
      assert (h + [k])[1..] == t + [k];
      assert (h + [k])[0] == h[0];
      LastUsesSnoc(t, k);
      LastUsesElements(t);
      if h[0] in t {
        assert h[0] in t + [k];
      } else if h[0] == k {
        assert h[0] in t + [k];
      } else {
        assert h[0] !in t + [k];
        assert LastUses(h) == [h[0]] + LastUses(t);
        assert Remove([h[0]] + LastUses(t), k) == [h[0]] + Remove(LastUses(t), k) by {
          assert ([h[0]] + LastUses(t))[1..] == LastUses(t);
        }
      }
    }
  }

  lemma SuffixOfConcat<K>(a: seq<K>, b: seq<K>, n: nat)
    requires |b| == n
    ensures Suffix(a + b, n) == b
  {
    if |a + b| > n {
      assert (a + b)[|a|..] == b;
    }
  }

  /** The empty map tracks the empty history. */
  lemma EmptyTracks<K, V>(capacity: int)
    requires 1 <= capacity
    ensures Tracks(Empty<K, V>(capacity), [])
  {
  }

  /** `d` is what precedes its last-`c` window followed by the window. */
  lemma SplitWindow<K>(d: seq<K>, c: nat) returns (p: seq<K>)
    ensures d == p + Suffix(d, c)
    ensures |Suffix(d, c)| <= c
    ensures |Suffix(d, c)| < c ==> p == []
  {
    p := d[..|d| - |Suffix(d, c)|];
  }

  lemma ConcatDistinct<K>(p: seq<K>, l: seq<K>)
    requires NoDuplicates(p + l)
    ensures NoDuplicates(l)
    ensures forall x :: x in l ==> x !in p
  {
    var d := p + l;
    forall i, j | 0 <= i < j < |l|
      ensures l[i] != l[j]
    {
      assert d[|p| + i] == l[i] && d[|p| + j] == l[j];
    }
    forall x | x in l
      ensures x !in p
    {
      var i :| 0 <= i < |l| && l[i] == x;
      assert d[|p| + i] == x;
      forall j | 0 <= j < |p|
        ensures p[j] != x
      {
        assert d[j] == p[j];
      }
    }
  }

  lemma PromoteSplit<K>(p: seq<K>, l: seq<K>, c: nat, k: K)
    requires NoDuplicates(p + l) && k in l
    requires |l| <= c && (|l| < c ==> p == [])
    ensures Suffix(Remove(p + l, k) + [k], c) == Remove(l, k) + [k]
  {
    ConcatDistinct(p, l);
    RemoveConcat(p, l, k);
    assert Remove(p, k) == p;
    RemoveDistinct(l, k);
    assert Remove(p + l, k) + [k] == p + (Remove(l, k) + [k]);
    if |l| < c {
      assert p + (Remove(l, k) + [k]) == Remove(l, k) + [k];
    } else {
      SuffixOfConcat(p, Remove(l, k) + [k], c);
    }
  }

  lemma AddSplit<K>(p: seq<K>, l: seq<K>, c: nat, k: K)
    requires 1 <= c && k !in l
    requires |l| <= c && (|l| < c ==> p == [])
    ensures |l| < c ==> Suffix(Remove(p + l, k) + [k], c) == l + [k]
    ensures |l| == c ==> Suffix(Remove(p + l, k) + [k], c) == l[1..] + [k]
  {
    RemoveConcat(p, l, k);
    var q := Remove(p, k);
    assert Remove(p + l, k) + [k] == q + l + [k];
    if |l| < c {
      assert q + l + [k] == l + [k];
    } else {
      assert q + l + [k] == (q + [l[0]]) + (l[1..] + [k]);
      SuffixOfConcat(q + [l[0]], l[1..] + [k], c);
    }
  }

  /** Moving a key of the window to the back of `d` moves it to the back of the window. */
  lemma PromoteWindow<K>(d: seq<K>, c: nat, k: K)
    requires 1 <= c && NoDuplicates(d)
    requires k in Suffix(d, c)
    ensures Suffix(Remove(d, k) + [k], c) == Remove(Suffix(d, c), k) + [k]
  {
    var p := SplitWindow(d, c);
    PromoteSplit(p, Suffix(d, c), c, k);
  }

  /** Appending a key outside the window to `d` pushes it into the window,
      and pushes the oldest key out when the window is full. */
  lemma AddWindow<K>(d: seq<K>, c: nat, k: K)
    requires 1 <= c
    requires k !in Suffix(d, c)
    ensures |Suffix(d, c)| < c ==> Suffix(Remove(d, k) + [k], c) == Suffix(d, c) + [k]
    ensures |Suffix(d, c)| == c ==> Suffix(Remove(d, k) + [k], c) == Suffix(d, c)[1..] + [k]
  {
    var p := SplitWindow(d, c);
    AddSplit(p, Suffix(d, c), c, k);
  }

  /** `setpop` follows the history: afterwards the map tracks `h + [k]`. */
  lemma SetPopTracks<K, V>(m: LruMap<K, V>, h: seq<K>, k: K, v: V)
    requires Valid(m) && Tracks(m, h)
    ensures Tracks(SetPop(m, k, v).0, h + [k])
  {
    var r := SetPop(m, k, v).0;
    LastUsesElements(h);
    LastUsesSnoc(h, k);
    BackIs(r.order, k);
    if k in m.values {
      PromoteWindow(LastUses(h), m.capacity, k);
    } else {
      AddWindow(LastUses(h), m.capacity, k);
    }
  }

  /** A `get` hit follows the history: afterwards the map tracks `h + [k]`. */
  lemma GetTracks<K, V>(m: LruMap<K, V>, h: seq<K>, k: K)
    requires Valid(m) && Tracks(m, h) && k in m.values
    ensures Tracks(Get(m, k).1, h + [k])
  {
    var r := Get(m, k).1;
    LastUsesElements(h);
    LastUsesSnoc(h, k);
    BackIs(r.order, k);
    PromoteWindow(LastUses(h), m.capacity, k);
  }

  /** Hence the map caches exactly the `capacity` most recently touched keys. */
  lemma CachedAreMostRecent<K, V>(m: LruMap<K, V>, h: seq<K>, k: K)
    requires Valid(m) && Tracks(m, h)
    ensures k in m.values <==> k in Suffix(LastUses(h), m.capacity)
  {
  }
}

=== FILE: mem.dfy ===
/**
 The in-memory store backend (`mem`): a plain token-to-value map with
 `load`, `save` and an idempotent `remove`, wrapped by the in-memory tier.
 */
module Mem {
  import opened Wrappers
  import opened Js
  import Lru
  import Memcache

  /** The backing map. */
  type Backing = map<Value, Value>

  /** The capacity used when the options give no `limit`. */
  const DefaultLimit: int := 32

  /** `load`: the value held under `token`, `undefined` when there is none. */
  function Load(m: Backing, token: Value): (r: Value)
    ensures token in m ==> r == m[token]
    ensures Truthy(r) ==> token in m
  {
    if token in m then m[token] else Undefined
  }

  /** `save`: store `value` under `token`, overwriting silently; the
      assignment evaluates to the value written. */
  function Save(m: Backing, token: Value, value: Value): (r: (Backing, Value))
    ensures r.1 == value
    ensures r.0.Keys == m.Keys + {token} && r.0[token] == value
    ensures forall u :: u in m && u != token ==> r.0[u] == m[u]
  {
    (m[token := value], value)
  }

  /** `remove`: `delete` the entry, which evaluates to `true` whether or not
      it was there. */
  function Remove(m: Backing, token: Value): (r: (Backing, bool))
    ensures r.1
    ensures r.0.Keys == m.Keys - {token}
    ensures forall u :: u in r.0 ==> r.0[u] == m[u]
  {
    (m - {token}, true)
  }

  /** A saved value is loaded back, and `save` evaluates to it. */
  lemma SaveThenLoad(m: Backing, token: Value, value: Value)
    ensures Load(Save(m, token, value).0, token) == value
    ensures Save(m, token, value).1 == value
  {
  }

  /** A removed token loads as `undefined`; removing twice, or removing an
      absent token, is harmless. */
  lemma RemoveThenLoad(m: Backing, token: Value)
    ensures Load(Remove(m, token).0, token) == Undefined
    ensures Remove(Remove(m, token).0, token) == Remove(m, token)
    ensures token !in m ==> Remove(m, token).0 == m
  {
    assert (m - {token}) - {token} == m - {token};
  }

  /** `save` and `remove` on one token leave every other token's value alone. */
  lemma OthersUnchanged(m: Backing, token: Value, value: Value, other: Value)
    requires other != token
    ensures Load(Save(m, token, value).0, other) == Load(m, other)
    ensures Load(Remove(m, token).0, other) == Load(m, other)
  {
  }

  /** A write made directly on the backing map. */
  datatype Write = Put(token: Value, value: Value) | Delete(token: Value)

  /** Applies writes in order, starting from `m`. */
  function Apply(m: Backing, ws: seq<Write>): Backing
    decreases |ws|
  {
    if |ws| == 0 then m
    else
      var next := match ws[0]
        case Put(t, v) => Save(m, t, v).0
        case Delete(t) => Remove(m, t).0;
      Apply(next, ws[1..])
  }

  /** The value the most recent write on `token` left, reading the history
      from its end; `undefined` when the token was never written or was last
      deleted. */
  function LastWritten(ws: seq<Write>, token: Value): Value
    decreases |ws|
  {
    if |ws| == 0 then Undefined
    else match ws[|ws| - 1]
      case Put(t, v) => if t == token then v else LastWritten(ws[..|ws| - 1], token)
      case Delete(t) => if t == token then Undefined else LastWritten(ws[..|ws| - 1], token)
  }

  lemma {:induction false} ApplySnoc(m: Backing, ws: seq<Write>, w: Write)
    ensures Apply(m, ws + [w]) == Apply(Apply(m, ws), [w])
    decreases |ws|
  {
    if |ws| > 0 {
      assert (ws + [w])[0] == ws[0];
      assert (ws + [w])[1..] == ws[1..] + [w];
      var next := match ws[0]
        case Put(t, v) => Save(m, t, v).0
        case Delete(t) => Remove(m, t).0;
      ApplySnoc(next, ws[1..], w);
    }
  }

  /** Starting from the empty map, `load(t)` returns the value last saved
      under `t`, or `undefined` if `t` was never saved or was removed since. */
  lemma {:induction false} LoadIsLastWrite(ws: seq<Write>, token: Value)
    ensures Load(Apply(map[], ws), token) == LastWritten(ws, token)
    decreases |ws|
  {
    if |ws| > 0 {
      var front := ws[..|ws| - 1];
      assert ws == front + [ws[|ws| - 1]];
      ApplySnoc(map[], front, ws[|ws| - 1]);
      LoadIsLastWrite(front, token);
    }
  }

  /** The backend as the in-memory tier sees it: none of its operations fails. */
  function Ops(): Memcache.Store<Backing> {
    Memcache.Store(
      (m, t) => Ok(Load(m, t)),
      (m, t, v) => Ok(Save(m, t, v).0),
      (m, t) => Ok(Remove(m, t).0))
  }

  /** `limit` after merging the options over the defaults: the given value
      when the field is present (even when it is `undefined`), else 32. */
  function Limit(limit: Option<Value>): (r: Value)
    ensures limit.None? ==> r == Num(32)
    ensures limit.Some? ==> r == limit.value
  {
    match limit
    case None => Num(DefaultLimit)
    case Some(v) => v
  }

  /** `mem(options)`: an empty backing map wrapped in the in-memory tier whose
      capacity is `options.limit`, 32 by default. */
  function Create(limit: Option<Value>): (r: Result<Memcache.Cache<Backing>, Memcache.ConstructionError>)
    ensures limit.None? ==> r.Ok? && r.value.tier.lru.capacity == 32
    ensures limit.Some? && Memcache.GoodCapacity(limit.value) ==> r.Ok? && r.value.tier.lru.capacity == limit.value.n
    ensures limit.Some? && !Memcache.GoodCapacity(limit.value) ==> r == Err(Memcache.InvalidCapacity(limit.value))
    ensures r.Ok? ==> Synced(r.value.tier) && r.value.tier.calls == [] && r.value.tier.store == map[]
    ensures r.Ok? ==> r.value.ops == Ops()
  {
    var opts := Memcache.StoreOptions(Callable(Ops().load), Callable(Ops().save), Callable(Ops().remove));
    Memcache.Create(opts, Limit(limit), map[])
  }

  /** The composed invariant: the backing map holds exactly the LRU map's
      tokens, with the same values. */
  predicate Synced(t: Memcache.Tier<Backing>) {
    Lru.Valid(t.lru) && t.store == t.lru.values
  }

  /** A tier whose backing map and memory agree. */
  type SyncedTier = t: Memcache.Tier<Backing> | Synced(t)
    witness Memcache.Tier(Lru.LruMap(1, [], map[]), map[], [])

  /** Through the tier, a `load` always returns what the backing map holds
      for the token, never fails, and keeps the two in step: a miss finds
      nothing in the map and so inserts nothing. */
  lemma LoadSynced(t: Memcache.Tier<Backing>, token: Value)
    requires Synced(t)
    ensures var r := Memcache.Load(Ops(), t, token);
            && Synced(r.tier)
            && r.result == Ok(Load(t.store, token))
            && r.tier.store == t.store
  {
  }

  /** Inserting the pair the backing map already holds brings memory back
      in step with it: the evicted token goes from both. */
  lemma InsertResyncs(t: Memcache.Tier<Backing>, token: Value, value: Value)
    requires Lru.Valid(t.lru) && t.store == t.lru.values[token := value]
    ensures var r := Memcache.Insert(Ops(), t, token, value);
            Synced(r.tier) && r.result == Ok(Undefined)
  {
    if token !in t.lru.values && |t.lru.order| == t.lru.capacity {
      var r := Memcache.Insert(Ops(), t, token, value);
      assert r.tier.store == t.store - {t.lru.order[0]};
    }
  }

  /** Through the tier, a `save` never fails and keeps the two in step:
      the backing map gains the token and loses the evicted token. */
  lemma SaveSynced(t: Memcache.Tier<Backing>, token: Value, value: Value)
    requires Synced(t)
    ensures var r := Memcache.Save(Ops(), t, token, value);
            && Synced(r.tier)
            && r.result == Ok(Undefined)
            && Load(r.tier.store, token) == value
  {
    var asked := Memcache.Tier(t.lru, t.store[token := value], t.calls + [Memcache.SaveCall(token, value)]);
    InsertResyncs(asked, token, value);
  }

  /** Saving the same pair twice leaves both tiers as saving it once. */
  lemma SaveIdempotent(t: Memcache.Tier<Backing>, token: Value, value: Value)
    requires Synced(t)
    ensures var once := Memcache.Save(Ops(), t, token, value).tier;
            var twice := Memcache.Save(Ops(), once, token, value).tier;
            twice.store == once.store && twice.lru == once.lru
  {
    var once := Memcache.Save(Ops(), t, token, value).tier;
    SaveSynced(t, token, value);
    Lru.SetPopRepeated(once.lru, token, value);
    assert once.store[token := value] == once.store;
    var asked := Memcache.Tier(once.lru, once.store, once.calls + [Memcache.SaveCall(token, value)]);
    assert Memcache.Save(Ops(), once, token, value) == Memcache.Insert(Ops(), asked, token, value);
  }
}

=== FILE: memcache.dfy ===
/**
 The in-memory tier (`memcache`): wraps any store offering `load`, `save` and
 `remove` in a fixed-capacity LRU map. Every insertion goes through
 `setpop`; an eviction from memory is followed by `remove` on the wrapped
 store, so an evicted token is gone from both tiers.

 The wrapped store is modelled as three functions over its state `S`, each
 of which may fail with a message; every call made on it is appended to a
 log so that the contracts can say which calls happened, and in what order.
 */
module Memcache {
  import opened Wrappers
  import opened Js
  import Lru
  import LruHistory

  /** A call made on the wrapped store. */
  datatype StoreCall = LoadCall(token: Value) | SaveCall(token: Value, value: Value) | RemoveCall(token: Value)

  type LoadFn<!S> = (S, Value) -> Result<Value, string>
  type SaveFn<!S> = (S, Value, Value) -> Result<S, string>
  type RemoveFn<!S> = (S, Value) -> Result<S, string>

  /** The wrapped store's operations. */
  datatype Store<!S> = Store(load: LoadFn<S>, save: SaveFn<S>, remove: RemoveFn<S>)

  /** The options object given to the constructor; any field may fail to be a function. */
  datatype StoreOptions<!S> = StoreOptions(load: Slot<LoadFn<S>>, save: Slot<SaveFn<S>>, remove: Slot<RemoveFn<S>>)

  /** Why construction failed: a field that is not a function (its name and
      the value found), or a capacity the LRU map refuses. */
  datatype ConstructionError = ExpectedFunction(field: string, encountered: NonFunction) | InvalidCapacity(size: Value)

  /** Both tiers' state: the LRU map, the wrapped store's state, and the log
      of calls made on the wrapped store. */
  datatype Tier<S> = Tier(lru: Lru.LruMap<Value, Value>, store: S, calls: seq<StoreCall>)

  /** A constructed cache: the wrapped operations and the initial state. */
  datatype Cache<!S> = Cache(ops: Store<S>, tier: Tier<S>)

  /** What an operation settles with, and the state it leaves behind. */
  datatype Step<S> = Step(result: Result<Value, string>, tier: Tier<S>)

  /** Whether `size` is a capacity the LRU map accepts: a positive integer. */
  predicate GoodCapacity(size: Value) {
    size.Num? && size.n >= 1
  }

  /** `memcache(opts, size)`: checks `load`, `save` and `remove` in that order
      and names the first that is not a function; then the capacity. */
  function Create<S>(opts: StoreOptions<S>, size: Value, initial: S): (r: Result<Cache<S>, ConstructionError>)
    ensures r.Ok? <==> opts.load.Callable? && opts.save.Callable? && opts.remove.Callable? && GoodCapacity(size)
    ensures opts.load.NotCallable? ==> r == Err(ExpectedFunction("load", opts.load.found))
    ensures opts.load.Callable? && opts.save.NotCallable? ==> r == Err(ExpectedFunction("save", opts.save.found))
    ensures opts.load.Callable? && opts.save.Callable? && opts.remove.NotCallable? ==>
              r == Err(ExpectedFunction("remove", opts.remove.found))
    ensures opts.load.Callable? && opts.save.Callable? && opts.remove.Callable? && !GoodCapacity(size) ==>
              r == Err(InvalidCapacity(size))
    ensures r.Ok? ==>
              && r.value.ops == Store(opts.load.fn, opts.save.fn, opts.remove.fn)
              && r.value.tier.store == initial && r.value.tier.calls == []
              && Lru.Valid(r.value.tier.lru) && r.value.tier.lru.capacity == size.n
              && r.value.tier.lru.values == map[]
  {
    match (opts.load, opts.save, opts.remove)
    case (NotCallable(v), _, _) => Err(ExpectedFunction("load", v))
    case (Callable(_), NotCallable(v), _) => Err(ExpectedFunction("save", v))
    case (Callable(_), Callable(_), NotCallable(v)) => Err(ExpectedFunction("remove", v))
    case (Callable(load), Callable(save), Callable(remove)) =>
      if !GoodCapacity(size) then Err(InvalidCapacity(size))
      else Ok(Cache(Store(load, save, remove), Tier(Lru.Empty(size.n), initial, [])))
  }

  /** `insert`: `setpop` into memory, then `remove` the evicted token, if any,
      from the wrapped store. The source's `insert` resolves to `remove`'s own
      return value; every caller discards it, so here it settles with
      `undefined`. */
  function Insert<S>(ops: Store<S>, t: Tier<S>, token: Value, data: Value): (r: Step<S>)
    requires Lru.Valid(t.lru)
    ensures Lru.Valid(r.tier.lru) && r.tier.lru.capacity == t.lru.capacity
    ensures token in r.tier.lru.values && r.tier.lru.values[token] == data
    ensures r.tier.lru.order[|r.tier.lru.order| - 1] == token
    // an existing token, or room to spare: nothing is evicted and the store is untouched
    ensures token in t.lru.values || |t.lru.order| < t.lru.capacity ==>
              && r.result.Ok?
              && r.tier.store == t.store && r.tier.calls == t.calls
              && r.tier.lru.values == t.lru.values[token := data]
    // a new token at capacity: exactly the least recently used entry is evicted and removed
    ensures token !in t.lru.values && |t.lru.order| == t.lru.capacity ==>
              var evicted := t.lru.order[0];
              && evicted != token
              && evicted !in r.tier.lru.values
              && r.tier.lru.values == (t.lru.values - {evicted})[token := data]
              && r.tier.calls == t.calls + [RemoveCall(evicted)]
              && (match ops.remove(t.store, evicted)
                  case Ok(s) => r.result.Ok? && r.tier.store == s
                  case Err(e) => r.result == Err(e) && r.tier.store == t.store)
  {
    var (lru, evicted) := Lru.SetPop(t.lru, token, data);
    match evicted
    case None => Step(Ok(Undefined), Tier(lru, t.store, t.calls))
    case Some((gone, _)) =>
      var calls := t.calls + [RemoveCall(gone)];
      match ops.remove(t.store, gone)
      case Ok(s) => Step(Ok(Undefined), Tier(lru, s, calls))
      case Err(e) => Step(Err(e), Tier(lru, t.store, calls))
  }

  /** `load`: a token held in memory is returned from memory and promoted,
      without consulting the wrapped store. Otherwise the wrapped store's
      `load` is called once; its result is returned unchanged and is inserted
      into memory only when truthy. */
  function Load<S>(ops: Store<S>, t: Tier<S>, token: Value): (r: Step<S>)
    requires Lru.Valid(t.lru)
    ensures Lru.Valid(r.tier.lru) && r.tier.lru.capacity == t.lru.capacity
    // hit
    ensures token in t.lru.values ==>
              && r.result == Ok(t.lru.values[token])
              && r.tier.calls == t.calls && r.tier.store == t.store
              && r.tier.lru.values == t.lru.values
              && r.tier.lru.order[|r.tier.lru.order| - 1] == token
    // miss: the wrapped store is asked exactly once, first
    ensures token !in t.lru.values ==>
              && |t.calls| < |r.tier.calls| <= |t.calls| + 2
              && r.tier.calls[..|t.calls| + 1] == t.calls + [LoadCall(token)]
              && (forall i :: |t.calls| < i < |r.tier.calls| ==> r.tier.calls[i].RemoveCall?)
    ensures token !in t.lru.values && ops.load(t.store, token).Err? ==>
              r == Step(ops.load(t.store, token), Tier(t.lru, t.store, t.calls + [LoadCall(token)]))
    ensures token !in t.lru.values && ops.load(t.store, token).Ok? && !Truthy(ops.load(t.store, token).value) ==>
              r == Step(ops.load(t.store, token), Tier(t.lru, t.store, t.calls + [LoadCall(token)]))
    ensures token !in t.lru.values && ops.load(t.store, token).Ok? && Truthy(ops.load(t.store, token).value) ==>
              var v := ops.load(t.store, token).value;
              var evicts := |t.lru.order| == t.lru.capacity;
              && token in r.tier.lru.values && r.tier.lru.values[token] == v
              && r.result == (if evicts && ops.remove(t.store, t.lru.order[0]).Err?
                              then Err(ops.remove(t.store, t.lru.order[0]).error) else Ok(v))
    // ... and both tiers end as inserting the loaded value leaves them
    ensures token !in t.lru.values && ops.load(t.store, token).Ok? && Truthy(ops.load(t.store, token).value) ==>
              r.tier == Insert(ops, Tier(t.lru, t.store, t.calls + [LoadCall(token)]), token, ops.load(t.store, token).value).tier
  {
    if Lru.Has(t.lru, token) then
      var (v, lru) := Lru.Get(t.lru, token);
      Step(Ok(v.value), Tier(lru, t.store, t.calls))
    else
      var asked := Tier(t.lru, t.store, t.calls + [LoadCall(token)]);
      match ops.load(t.store, token)
      case Err(e) => Step(Err(e), asked)
      case Ok(v) =>
        if Truthy(v) then
          var ins := Insert(ops, asked, token, v);
          Step(if ins.result.Err? then ins.result else Ok(v), ins.tier)
        else
          Step(Ok(v), asked)
  }

  /** `save`: the wrapped store's `save` first, then the insertion into memory.
      Settles with `undefined`. */
  function Save<S>(ops: Store<S>, t: Tier<S>, token: Value, value: Value): (r: Step<S>)
    requires Lru.Valid(t.lru)
    ensures Lru.Valid(r.tier.lru) && r.tier.lru.capacity == t.lru.capacity
    ensures |t.calls| < |r.tier.calls| <= |t.calls| + 2
    ensures r.tier.calls[..|t.calls| + 1] == t.calls + [SaveCall(token, value)]
    ensures (forall i :: |t.calls| < i < |r.tier.calls| ==> r.tier.calls[i].RemoveCall?)
    ensures ops.save(t.store, token, value).Err? ==>
              r == Step(Err(ops.save(t.store, token, value).error), Tier(t.lru, t.store, t.calls + [SaveCall(token, value)]))
    ensures ops.save(t.store, token, value).Ok? ==>
              && token in r.tier.lru.values && r.tier.lru.values[token] == value
              && r.tier.lru.order[|r.tier.lru.order| - 1] == token
    ensures ops.save(t.store, token, value).Ok? ==>
              var saved := ops.save(t.store, token, value).value;
              var evicts := token !in t.lru.values && |t.lru.order| == t.lru.capacity;
              r.result == (if evicts && ops.remove(saved, t.lru.order[0]).Err?
                           then Err(ops.remove(saved, t.lru.order[0]).error) else Ok(Undefined))
    // an accepted save is followed by the insertion into memory, over the store `save` left
    ensures ops.save(t.store, token, value).Ok? ==>
              r == Insert(ops, Tier(t.lru, ops.save(t.store, token, value).value, t.calls + [SaveCall(token, value)]), token, value)
  {
    var asked := t.calls + [SaveCall(token, value)];
    match ops.save(t.store, token, value)
    case Err(e) => Step(Err(e), Tier(t.lru, t.store, asked))
    case Ok(s) => Insert(ops, Tier(t.lru, s, asked), token, value)
  }

  /** An evicted token is absent from memory, so loading it next consults
      the wrapped store. */
  lemma EvictedLoadsFromStore<S>(ops: Store<S>, t: Tier<S>, token: Value, data: Value)
    requires Lru.Valid(t.lru)
    requires token !in t.lru.values && |t.lru.order| == t.lru.capacity
    ensures var evicted := t.lru.order[0];
            var after := Insert(ops, t, token, data).tier;
            Load(ops, after, evicted).tier.calls[|after.calls|] == LoadCall(evicted)
  {
  }

  /** A `load` touches the token when it hits, or when it misses and inserts
      the store's truthy result; memory then keeps the recency order of the
      touches so far. */
  lemma LoadFollowsHistory<S>(ops: Store<S>, t: Tier<S>, token: Value, h: seq<Value>)
    requires Lru.Valid(t.lru) && LruHistory.Tracks(t.lru, h)
    ensures var loaded := ops.load(t.store, token);
            var touched := token in t.lru.values || (loaded.Ok? && Truthy(loaded.value));
            LruHistory.Tracks(Load(ops, t, token).tier.lru, if touched then h + [token] else h)
  {
    if token in t.lru.values {
      LruHistory.GetTracks(t.lru, h, token);
    } else if ops.load(t.store, token).Ok? && Truthy(ops.load(t.store, token).value) {
      LruHistory.SetPopTracks(t.lru, h, token, ops.load(t.store, token).value);
    }
  }

  /** A `save` the store accepted touches the token. */
  lemma SaveFollowsHistory<S>(ops: Store<S>, t: Tier<S>, token: Value, value: Value, h: seq<Value>)
    requires Lru.Valid(t.lru) && LruHistory.Tracks(t.lru, h)
    ensures LruHistory.Tracks(Save(ops, t, token, value).tier.lru,
                              if ops.save(t.store, token, value).Ok? then h + [token] else h)
  {
    if ops.save(t.store, token, value).Ok? {
      LruHistory.SetPopTracks(t.lru, h, token, value);
    }
  }
}

=== FILE: pipeline.dfy ===
/**
 The whole pipeline: the orchestrator whose `load` and `save` are those of
 the in-memory tier wrapped around the in-memory map backend, as `mem()`
 returns them. The world the orchestrator threads through its runs is the
 pair of tiers, which always agree.
 */
module Pipeline {
  import opened Wrappers
  import opened Js
  import Lru
  import Memcache
  import Mem
  import Basement

  /** Both tiers, in step. */
  type World = Mem.SyncedTier

  /** The tier's `load` as the orchestrator calls it. */
  function TierLoad(w: World, token: Value): (r: (Result<Value, string>, World))
    ensures r.0 == Ok(Mem.Load(w.store, token))
  {
    Mem.LoadSynced(w, token);
    var s := Memcache.Load(Mem.Ops(), w, token);
    (s.result, s.tier)
  }

  /** The tier's `save` as the orchestrator calls it. */
  function TierSave(w: World, token: Value, value: Value): (r: (Result<Value, string>, World))
    ensures r.0 == Ok(Undefined)
    ensures Mem.Load(r.1.store, token) == value
  {
    Mem.SaveSynced(w, token, value);
    var s := Memcache.Save(Mem.Ops(), w, token, value);
    (s.result, s.tier)
  }

  /** The options object `mem()` hands to the hook: `load` and `save`, no `key`. */
  function StorageOptions(): Basement.Options<World> {
    Basement.Options(None, Some(Callable(TierLoad)), Some(Callable(TierSave)))
  }

  /** One run of the hook over the tiers, with `key` as the default key. */
  function Run(source: Value, fetch: Basement.FetchFn, key: Basement.KeyFn, w: World): Basement.Run<World> {
    Basement.Resolve(source, Callable(fetch), StorageOptions(), Basement.Defaults(key), w)
  }

  /** The tiers a freshly created `mem({limit: n})` starts with. */
  function Fresh(limit: int): (w: World)
    requires limit >= 1
    ensures w.lru.capacity == limit && w.store == map[] && w.calls == []
  {
    Mem.Create(Some(Num(limit))).value.tier
  }

  /** The first run for a token neither tier holds fetches once, and leaves
      the fetched value under the token in both tiers. */
  lemma FirstRunFills(source: Value, fetch: Basement.FetchFn, key: Basement.KeyFn, w: World)
    requires Basement.Resolvable(source) && key(source).Returned?
    requires key(source).token !in w.store
    requires fetch(source).Ok?
    ensures var r := Run(source, fetch, key, w);
            var token := key(source).token;
            var v := fetch(source).value;
            && r.calls == [Basement.KeyCall(source), Basement.LoadCall(token), Basement.FetchCall(source), Basement.SaveCall(token, v)]
            && Basement.Final(r) == Basement.Ready(v)
            && token in r.world.store && r.world.store[token] == v
            && token in r.world.lru.values && r.world.lru.values[token] == v
  {
    Basement.MissFetchesOnceThenSaves(source, Callable(fetch), StorageOptions(), Basement.Defaults(key), w);
  }

  /** Sources that derive the same token share the cache: once a run has made
      a truthy value ready, the next run for any source with that token is
      ready with the same value, and calls neither `fetch` nor `save`. */
  lemma SecondRunHits(a: Value, b: Value, fetch: Basement.FetchFn, key: Basement.KeyFn, w: World)
    requires Basement.Resolvable(a) && Basement.Resolvable(b)
    requires key(a).Returned? && key(b) == key(a)
    requires var r := Run(a, fetch, key, w);
             Basement.Final(r).Ready? && Truthy(Basement.Final(r).value)
    ensures var first := Run(a, fetch, key, w);
            var second := Run(b, fetch, key, first.world);
            && second.calls == [Basement.KeyCall(b), Basement.LoadCall(key(a).token)]
            && Basement.Final(second) == Basement.Final(first)
  {
    var token := key(a).token;
    var first := Run(a, fetch, key, w);
    var loaded := TierLoad(w, token);
    if !Truthy(loaded.0.value) {
      Basement.MissFetchesOnceThenSaves(a, Callable(fetch), StorageOptions(), Basement.Defaults(key), w);
    } else {
      Basement.HitSkipsFetch(a, Callable(fetch), StorageOptions(), Basement.Defaults(key), w);
      assert first.world == loaded.1;
      Mem.LoadSynced(w, token);
    }
    assert Mem.Load(first.world.store, token) == Basement.Final(first).value;
    Basement.HitSkipsFetch(b, Callable(fetch), StorageOptions(), Basement.Defaults(key), first.world);
  }

  /** With the default key, sources that serialise alike share the cache. */
  lemma EqualSerialisationsShareCache(a: Value, b: Value, fetch: Basement.FetchFn,
                                      stringify: Value -> Result<string, string>, hash: string -> int, w: World)
    requires Basement.Resolvable(a) && Basement.Resolvable(b)
    requires stringify(a).Ok? && stringify(b) == stringify(a)
    requires var r := Run(a, fetch, Basement.DefaultKey(stringify, hash), w);
             Basement.Final(r).Ready? && Truthy(Basement.Final(r).value)
    ensures var key := Basement.DefaultKey(stringify, hash);
            var first := Run(a, fetch, key, w);
            var second := Run(b, fetch, key, first.world);
            && second.calls == [Basement.KeyCall(b), Basement.LoadCall(Num(hash(stringify(a).value)))]
            && Basement.Final(second) == Basement.Final(first)
  {
    var key := Basement.DefaultKey(stringify, hash);
    Basement.DefaultKeyDependsOnSerialisation(stringify, hash, a, b);
    SecondRunHits(a, b, fetch, key, w);
  }

  /** A miss leaves memory as it was, so the save that follows sees the
      tiers as they were before the run, plus the logged store load. */
  lemma MissRunSaves(source: Value, fetch: Basement.FetchFn, key: Basement.KeyFn, w: World)
    requires Basement.Resolvable(source) && key(source).Returned?
    requires key(source).token !in w.store
    requires fetch(source).Ok?
    ensures var token := key(source).token;
            var loaded := TierLoad(w, token).1;
            && loaded.lru == w.lru && loaded.store == w.store
            && Run(source, fetch, key, w).world == TierSave(loaded, token, fetch(source).value).1
  {
    Basement.MissFetchesOnceThenSaves(source, Callable(fetch), StorageOptions(), Basement.Defaults(key), w);
  }

  /** Saving a new token into full tiers removes the least recently used
      token from the backing map. The LRU library reports that eviction only
      for a truthy token, so the claim is made for truthy ones. */
  lemma SaveEvicts(w: World, token: Value, value: Value)
    requires token !in w.store && |w.lru.order| == w.lru.capacity
    requires Truthy(w.lru.order[0])
    ensures Memcache.RemoveCall(w.lru.order[0]) in TierSave(w, token, value).1.calls
  {
    var asked := Memcache.Tier(w.lru, w.store[token := value], w.calls + [Memcache.SaveCall(token, value)]);
    assert Memcache.Save(Mem.Ops(), w, token, value) == Memcache.Insert(Mem.Ops(), asked, token, value);
    var after := Memcache.Insert(Mem.Ops(), asked, token, value).tier;
    assert after.calls[|after.calls| - 1] == Memcache.RemoveCall(w.lru.order[0]);
  }

  /** Tiers with room for one entry that hold `k` hold only `k`. */
  lemma OnlyEntry(w: World, k: Value)
    requires w.lru.capacity == 1 && k in w.store
    ensures w.store == map[k := w.store[k]] && w.lru.order == [k]
  {
    Lru.Bounded(w.lru);
    assert k in w.lru.order;
  }

  /** With room for one entry: resolving A, then B, then A again. B's save
      evicts A from memory and removes it from the backing map, so the third
      run misses and fetches A a second time. A's token is truthy, as the
      LRU library reports the eviction only then. */
  lemma OneSlotScenario(fetch: Basement.FetchFn, key: Basement.KeyFn, a: Value, b: Value, ta: Value, tb: Value, da: Value, db: Value)
    requires Basement.Resolvable(a) && Basement.Resolvable(b)
    requires key(a) == Basement.Returned(ta) && key(b) == Basement.Returned(tb) && ta != tb
    requires Truthy(ta)
    requires fetch(a) == Ok(da) && fetch(b) == Ok(db)
    ensures var run1 := Run(a, fetch, key, Fresh(1));
            var run2 := Run(b, fetch, key, run1.world);
            var run3 := Run(a, fetch, key, run2.world);
            && Basement.Final(run1) == Basement.Ready(da) && run1.world.store == map[ta := da]
            && Basement.Final(run2) == Basement.Ready(db) && run2.world.store == map[tb := db]
            && Memcache.RemoveCall(ta) in run2.world.calls
            && Basement.FetchCall(a) in run3.calls
            && Basement.Final(run3) == Basement.Ready(da)
  {
    var w0 := Fresh(1);
    FirstRunFills(a, fetch, key, w0);
    var w1 := Run(a, fetch, key, w0).world;
    OnlyEntry(w1, ta);
    FirstRunFills(b, fetch, key, w1);
    MissRunSaves(b, fetch, key, w1);
    SaveEvicts(TierLoad(w1, tb).1, tb, db);
    var w2 := Run(b, fetch, key, w1).world;
    OnlyEntry(w2, tb);
    FirstRunFills(a, fetch, key, w2);
  }
}

=== FILE: wrappers.dfy ===
/** Failure-carrying wrappers shared by every module of the model. */
module Wrappers {

  /** A value that may be absent. */
  datatype Option<+T> = None | Some(value: T)

  /** The outcome of an operation that may fail with an error value. */
  datatype Result<+T, +E> = Ok(value: T) | Err(error: E)
}
